=== FILE: README.md ===
# Graph algorithms engine, modelled in Dafny

`graph_algorithms.py` reads a graph from a whitespace-tokenised text. The first
line is the header `vertexCount edgeCount graphType`. Then come `edgeCount` edge
lines `from to weight`, and an optional trailing line that holds only the source
vertex. The program builds an adjacency map from the text. It then runs
Dijkstra's shortest-path algorithm and Prim's spanning-tree algorithm from the
source.

The model has five modules, one per file:

- `Graph` (`graph.dfy`) holds the shared pieces:
  - vertices, the adjacency map `map<Vertex, map<Vertex, nat>>`, and the error values;
  - paths, path weight and reachability, which the engine contracts are stated in.
- `GraphText` (`graph_text.dfy`) models `gather_info`. The text is taken already
  tokenised and typed:
  - the header is a three-field record;
  - each later line is either an edge triple or the bare tokens of some other line.
- `Builder` (`builder.dfy`) models `build_graph` as two functional passes:
  - the forward pass over edge lines 1..edgeCount;
  - for type `"U"`, a mirror pass that runs after it.

  A missing edge line (Python's `IndexError`) and a line that is not a triple
  (`ValueError`) become `Err(MissingLine(i))` and `Err(MalformedLine(i))`. In both,
  `i` is the first failing index of the text.
- `ShortestPath` (`shortest_path.dfy`) models `shortest_path_djikstra`.
  - `np.inf` is the `Inf` constructor of a `Dist` datatype.
  - The parent markers `'-'` and `''` are `Root` and `Unset`.
  - The priority queue is a multiset of vertices, and *any* element may be taken
    from it. The loop relaxes with the distance stored in the table, never the
    popped key. So every property proved holds whatever order `heapq` actually
    delivers, including after line 78 changes the key of a vertex's first heap entry.
  - Termination is proved with a real measure: the number of vertices at
    infinity, then the sum of the finite distances, then the queue size.
- `SpanningTree` (`spanning_tree.dfy`) models `minimum_spanning_tree_prim`.
  - The heap of candidate edges is a multiset. *Some* entry of least cost is
    taken from it, and ties may go either way.
  - A ghost visit order (`rank`) records when each vertex joined the tree.
- `Scenarios` (`scenarios.dfy`) holds concrete texts that pin down how repeated
  and opposing edge lines are resolved.

Both engines index `adjacency_list[source]`. When the source is not a key, Python
raises `KeyError`. Dijkstra raises it at line 71, after line 53 has added the
source to its own table; Prim raises it at line 89. In the model both return
`Err(UnknownSource(source))`.

Both engines require `Closed(adj)`: every neighbour is itself a key.
`Builder.BuildGraph` proves that it always produces such a map.

One would expect type `"U"` weights to be symmetric whatever the order of the
lines; the code does not guarantee it. The mirror pass writes `adj[b][a] := c` for every line after the
forward pass has finished. So a pair listed in both directions with different
weights comes out asymmetric. `A B 5` followed by `B A 3` gives
`adj[A][B] = 3` and `adj[B][A] = 5`. The model follows the code:

- `Scenarios.OpposingLinesAsymmetric` proves this example.
- `Builder.UndirectedSymmetric` proves symmetry exactly when no pair is listed in
  both directions.

## Model

| member | source | states |
|---|---|---|
| `GraphText.GatherInfo` | graph_algorithms.py:14-22 | The header fields pass through unchanged. If the last line of the text has exactly one token, the source is that token. Otherwise (no lines after the header, or a last line of another length) the source is `"dummy"`. |
| `GraphText.AppendSourceLine` | graph_algorithms.py:20-21 | Appending a one-token line to any text makes that token the source. |
| `Builder.TakeEdges` | graph_algorithms.py:29-30 | Reading lines 1..count succeeds exactly when they are all present and all triples, and then yields those triples in order. `MalformedLine(i)` names the first line that is not a triple; every line before it is a triple. `MissingLine(i)` means the text ran out at index `i = |lines| + 1 <= count`, with every line before it a triple. No other error is possible. |
| `Builder.AddEdge` | graph_algorithms.py:31-36 | One forward step adds both endpoints as keys. It sets the weight from `from` to `to` and leaves every other weight unchanged. |
| `Builder.ForwardPass` | graph_algorithms.py:28-36 | After the forward pass, the keys are exactly the endpoints of the edge lines. The weight from `a` to `b` is the weight of the last line from `a` to `b`, as given by the independent last-line-first definition `LastWeight`. |
| `Builder.MirrorPass` | graph_algorithms.py:39-42 | The mirror pass keeps the key set. The weight from `a` to `b` becomes that of the last line from `b` to `a` if there is one; otherwise the previous weight stays. |
| `Builder.Adjacencies` | graph_algorithms.py:28-42 | The keys are the endpoints. Outside type `"U"` the weights are the last-line weights. For `"U"`, a reverse line's weight takes precedence over a forward one. |
| `Builder.BuildGraph` | graph_algorithms.py:24-44 | Building succeeds exactly when edge lines 1..edgeCount are present and well formed; a negative edgeCount reads no lines. A failure carries the error of the first bad line. A success returns the source that `gather_info` found, and a map in which every neighbour is a key. |
| `Builder.EdgesOf` | graph_algorithms.py:29-30 | The edges read are exactly lines 1..edgeCount of the text, and there are edgeCount of them. |
| `Builder.LastWeightIsLastLine` | graph_algorithms.py:29-36 | `LastWeight(edges, a, b)` is `None` exactly when no line goes from `a` to `b`. Otherwise it is the weight of the last such line, and it is always the weight of some such line. |
| `Builder.EndpointsAreEndpoints` | graph_algorithms.py:31-36 | A vertex is an endpoint exactly when some edge line names it as `from` or `to`. |
| `Builder.BuildKeys` | graph_algorithms.py:29-36 | The key set of the built map is exactly the set of vertices named as `from` or `to` on edge lines 1..edgeCount. |
| `Builder.LaterLinesIgnored` | graph_algorithms.py:29 | Appending any lines after a text that builds leaves the adjacency map unchanged. |
| `Builder.DirectedLastWriteWins` | graph_algorithms.py:31-34 | Outside type `"U"`, every weight in the map is the weight of some edge line from `a` to `b`, so no reverse edge is added. The last such line's weight is the one stored. |
| `Builder.UndirectedMirror` | graph_algorithms.py:39-42 | For type `"U"`, every edge line `(a, b, c)` puts `a` among the neighbours of `b`. The weight from `b` to `a` is that of the last line from `a` to `b`, even if a line from `b` to `a` exists. |
| `Builder.UndirectedSymmetric` | graph_algorithms.py:39-42 | For type `"U"`, if no two distinct vertices are joined by lines in both directions, the weight from `a` to `b` equals the weight from `b` to `a`, for every `a` and `b`. |
| `Scenarios.RepeatedPairLastWins` | graph_algorithms.py:31-36 | A directed text listing `A B 5` and then `A B 2` has keys `{A, B}`, weight 2 from A to B, no edge from B to A, and source `A`. |
| `Scenarios.OpposingLinesAsymmetric` | graph_algorithms.py:39-42 | An undirected text listing `A B 5` and then `B A 3` gives weight 3 from A to B and weight 5 from B to A. |
| `Scenarios.TooFewLines` | graph_algorithms.py:29-30 | An edge count of 3 with a single edge line fails with a missing line at index 2. |
| `Scenarios.SourceLineCountedAsEdge` | graph_algorithms.py:29-30 | An edge count that also covers the one-token source line fails with a malformed line at that line's index. |
| `ShortestPath.Initial` | graph_algorithms.py:50-53 | The initial table has one entry per key. The source is at distance 0 with parent `'-'`; every other vertex is at infinity with parent `''`. |
| `ShortestPath.Relax` | graph_algorithms.py:72-77 | Relaxing `u -> v` touches no vertex but `v`, and never raises a distance. When `v` changes, its distance strictly drops to `dist[u] + w` and its parent becomes `u`. Afterwards `dist[v] <= dist[u] + w`. |
| `ShortestPath.DecreaseIsSmaller` | graph_algorithms.py:75-79 | Every strict decrease of one distance lowers the termination measure (vertices at infinity, then the sum of the finite distances). So each push onto the queue is paid for. |
| `ShortestPath.PopKeeps` | graph_algorithms.py:69-71 | Taking any vertex out of the queue keeps the loop invariant, with that vertex's edges still to be relaxed. |
| `ShortestPath.RelaxImproves` | graph_algorithms.py:75-79 | An improving relaxation, with its push onto the queue, keeps the loop invariant. |
| `ShortestPath.RelaxKeeps` | graph_algorithms.py:72-75 | A relaxation that changes nothing keeps the loop invariant. |
| `ShortestPath.RelaxNeighbours` | graph_algorithms.py:71-79 | Relaxing every edge out of the popped vertex restores the loop invariant. Either the table and the queue are unchanged, or the termination measure strictly dropped. |
| `ShortestPath.ShortestPaths` | graph_algorithms.py:46-81 | An unknown source gives `KeyError`; otherwise the loop terminates. Keys are unchanged, and the source keeps distance 0 and parent `'-'`. Another vertex has parent `''` exactly when it is at infinity. Every edge is relaxed at exit. Each parent `u` of `v` satisfies `dist[v] = dist[u] + w(u, v)`. A distance is finite exactly when the vertex is reachable, and is then the weight of some path. No path from the source is lighter. |
| `ShortestPath.Conclude` | graph_algorithms.py:67-81 | The loop invariant at an empty queue yields every result property of `ShortestPaths`. |
| `ShortestPath.FixedPointIsOptimal` | graph_algorithms.py:67-79 | In a table where every edge is relaxed and the source is at 0, no path from the source weighs less than the distance stored for its end. |
| `ShortestPath.PathBound` | graph_algorithms.py:72-75 | The same bound for one given path, by induction on its length. |
| `SpanningTree.Record` | graph_algorithms.py:102 | Recording `(cost, to)` under `parent` adds exactly that one tree edge and that one child. Every other parent's branches are kept. |
| `SpanningTree.Seed` | graph_algorithms.py:88-91 | The initial heap holds exactly the entries `(adj[source][to], source, to)`, one per neighbour `to` of the source, each at most once. |
| `SpanningTree.LightestExists` | graph_algorithms.py:97 | A non-empty heap has an entry of least cost to pop. |
| `SpanningTree.LightestLeavesVisited` | graph_algorithms.py:97-99 | With every edge from a visited to an unvisited vertex queued, a least-cost entry weighs no more than any edge leaving the visited set. |
| `SpanningTree.SkipKeeps` | graph_algorithms.py:97-99 | Popping an entry whose target is already visited keeps the loop invariant. |
| `SpanningTree.VisitKeeps` | graph_algorithms.py:97-102 | Visiting the target of a least-cost entry keeps the loop invariant: the entry becomes a tree edge and the new vertex's edges are still to be pushed. It also strictly shrinks the set of unvisited keys. |
| `SpanningTree.RecordChildOnce` | graph_algorithms.py:99-102 | Recording a vertex that is not yet a child keeps every vertex a child at most once. |
| `SpanningTree.RecordCount` | graph_algorithms.py:99-102 | Recording a vertex that is not yet a child adds exactly one tree edge. |
| `SpanningTree.PrimStep` | graph_algorithms.py:97-107 | One round of the loop pops a least-cost entry, which it returns as `heappop` does, and keeps the loop invariant. If the entry's target is already visited, the visited set and the tree are unchanged and only that entry leaves the heap. Otherwise the visited set gains exactly that target and the tree gains exactly that edge, so visited vertices stay visited. Either one more vertex is visited or the heap shrinks, so the loop terminates. |
| `SpanningTree.PushKeeps` | graph_algorithms.py:104-107 | Pushing the edge to one more neighbour (skipped when that neighbour is visited) keeps the loop invariant. |
| `SpanningTree.PushNeighbours` | graph_algorithms.py:104-107 | After every unvisited neighbour of the new vertex is pushed, every edge leaving the visited set is queued again. |
| `SpanningTree.Finish` | graph_algorithms.py:94-109 | The loop invariant at an empty heap yields every result property of `MinimumSpanningTree`. |
| `SpanningTree.Conclude` | graph_algorithms.py:94-107 | Once the heap is empty, the visited set is exactly the set of vertices reachable from the source, and the tree covers exactly it. |
| `SpanningTree.MinimumSpanningTree` | graph_algorithms.py:83-109 | An unknown source gives `KeyError`; otherwise the loop terminates. Every tree edge `(cost, child)` under `parent` is an edge of the map with that weight, from a vertex visited earlier. No parent has an empty branch set. The source is never a child, and no vertex is a child twice. The tree covers exactly the vertices reachable from the source, with one edge fewer than the vertices it covers. Each tree edge is a lightest edge leaving the vertices visited before its child. |

## Left out

- `read_input` (lines 6-12), `choose_graph` (lines 111-123) and the top-level script (lines 125-153) are left out. They do file and console I/O, and the script's output formatting, fallback source choice and total-cost sum are part of that layer.
- The debug `print(edges)` inside Prim (line 95) is left out: it is output only.
- Token parsing is left out. The text is taken already split and typed. An edge line is a triple with a natural-number weight; any other line is kept as its tokens. Python's `int()` syntax and the `ValueError` of a malformed header are not modelled. Neither is the `IndexError` of an input with no header line.
- Negative weights are left out: the program does not support them, and weights are `nat` throughout. A line such as `A B -3`, which Python's `build_graph` accepts with weight -3, is outside the model's input altogether. Writing it as an `Other` line would make `BuildGraph` report `MalformedLine`, which Python does not do, so such texts are not modelled.
- `ShortestPaths`: keeps the parent markers apart from vertex labels, since `Root` and `Unset` differ from every `Via(v)`. In Python the markers are the strings `'-'` and `''` (lines 51-53, 77), so a vertex labelled `-` that becomes a parent is indistinguishable from the root marker in the output. That collision is not modelled. The clause "the parent is not `Root` for every vertex other than the source" describes the model's table, not the strings the program returns.
- `np.inf` as a float is replaced by the `Inf` constructor. Float arithmetic is not modelled.
- The internals of `heapq` are not modelled. That includes its tie-breaking by comparing vertex labels and the in-place key change at line 78, whose entry may still be queued or may already have been popped (next line). Dijkstra's queue may yield any entry; Prim's heap may yield any entry of least cost. Both generalise what `heapq` does, so the proved properties hold for its actual order. Which particular tree or parent is chosen among equal-cost options is not determined.
- The `entry_lookup` map of lines 56 and 63 is left out. Its entries are the very lists pushed onto the heap at line 64, so line 78 lowers the key of the vertex's first heap entry, which may still be queued or may already have been popped. Either way it changes at most the order in which `heapq` extracts entries, and the model already leaves that order arbitrary (previous line); the loop body reads distances from the table, not from the popped key.
- `MinimumSpanningTree`: proves the cut property — each tree edge is a lightest edge leaving the vertices visited before its child — together with the tree's shape, coverage and edge count. It does not prove that the total weight is minimal over all spanning trees of undirected input, which the docstring at line 84 promises.
- Dijkstra's and Prim's ghost bookkeeping is proof-only and has no counterpart in the program. That means the path witnesses, the listing of the keys used in the termination measure, and the visit order `rank`.

=== FILE: builder.dfy ===
/**
 The adjacency builder (build_graph): the edge lines 1..edgeCount of the text
 become an adjacency map, in a forward pass and, for graph type "U", a mirror
 pass that runs after the forward pass has finished.
 */
module Builder {
  import opened Graph
  import opened GraphText

  /** The adjacency map and the source that build_graph returns. */
  datatype Built = Built(adjacency: Adjacency, source: Vertex)

  /** How many edge lines the header asks for: range(1, u + 1) is empty for u <= 0. */
  function EdgeCount(g: Text): nat {
    if g.header.edgeCount < 0 then 0 else g.header.edgeCount
  }

  /** Lines 1..count of the text are all edge lines. */
  ghost predicate EdgeLinesPresent(lines: seq<Line>, count: nat) {
    count <= |lines| && forall i :: 0 <= i < count ==> lines[i].EdgeLine?
  }

  /**
   Reads graph[1..count] as edge triples, failing at the first graph index
   that is missing (IndexError) or not a triple (ValueError).
   */
  function TakeEdges(lines: seq<Line>, count: nat): (r: Result<seq<Edge>>)
    ensures r.Ok? <==> EdgeLinesPresent(lines, count)
    ensures r.Ok? ==> |r.value| == count && forall i :: 0 <= i < count ==> r.value[i] == lines[i].edge
    ensures r.Err? && r.error.MalformedLine? ==>
              var i := r.error.index;
              && 1 <= i <= count && i <= |lines| && lines[i - 1].Other?
              && EdgeLinesPresent(lines, i - 1)
    ensures r.Err? && r.error.MissingLine? ==>
              && r.error.index == |lines| + 1 <= count
              && EdgeLinesPresent(lines, |lines|)
    ensures r.Err? ==> r.error.MalformedLine? || r.error.MissingLine?
    decreases count
  {
    if count == 0 then Ok([])
    else match TakeEdges(lines, count - 1)
      case Err(e) => Err(e)
      case Ok(edges) =>
        if count > |lines| then Err(MissingLine(count))
        else match lines[count - 1]
          case EdgeLine(e) => Ok(edges + [e])
          case Other(_) => Err(MalformedLine(count))
  }

  /** Every endpoint, from or to, of the edge lines. */
  function Endpoints(edges: seq<Edge>): set<Vertex>
    decreases |edges|
  {
    if |edges| == 0 then {}
    else Endpoints(edges[..|edges| - 1]) + {edges[|edges| - 1].from, edges[|edges| - 1].to}
  }

  /** Endpoints holds exactly the from and to vertices of the edge lines. */
  lemma {:induction false} EndpointsAreEndpoints(edges: seq<Edge>)
    ensures forall v :: v in Endpoints(edges) <==>
              exists i :: 0 <= i < |edges| && (edges[i].from == v || edges[i].to == v)
    decreases |edges|
  {
    if |edges| > 0 {
      var prefix := edges[..|edges| - 1];
      EndpointsAreEndpoints(prefix);
      assert forall i :: 0 <= i < |prefix| ==> prefix[i] == edges[i];
    }
  }

  /** The weight of the last edge line from a to b, the reference for "last write wins". */
  function LastWeight(edges: seq<Edge>, a: Vertex, b: Vertex): Option<nat>
    decreases |edges|
  {
    if |edges| == 0 then None
    else
      var e := edges[|edges| - 1];
      if e.from == a && e.to == b then Some(e.weight) else LastWeight(edges[..|edges| - 1], a, b)
  }

  predicate Joins(e: Edge, a: Vertex, b: Vertex) {
    e.from == a && e.to == b
  }

  /**
   LastWeight is None exactly when no line goes from a to b, and otherwise the
   weight of the line from a to b that no later such line follows.
   */
  lemma {:induction false} LastWeightIsLastLine(edges: seq<Edge>, a: Vertex, b: Vertex)
    ensures LastWeight(edges, a, b).None? <==> forall i :: 0 <= i < |edges| ==> !Joins(edges[i], a, b)
    ensures forall i :: 0 <= i < |edges| && Joins(edges[i], a, b) &&
                        (forall j :: i < j < |edges| ==> !Joins(edges[j], a, b)) ==>
                          LastWeight(edges, a, b) == Some(edges[i].weight)
    ensures LastWeight(edges, a, b).Some? ==>
              exists i :: 0 <= i < |edges| && edges[i] == Edge(a, b, LastWeight(edges, a, b).value) &&
                          forall j :: i < j < |edges| ==> !Joins(edges[j], a, b)
    decreases |edges|
  {
    if |edges| > 0 {
      var prefix := edges[..|edges| - 1];
      LastWeightIsLastLine(prefix, a, b);
      assert forall i :: 0 <= i < |prefix| ==> prefix[i] == edges[i];
      if Joins(edges[|edges| - 1], a, b) {
        assert edges[|edges| - 1] == Edge(a, b, LastWeight(edges, a, b).value);
      } else if LastWeight(prefix, a, b).Some? {
        var i :| 0 <= i < |prefix| && prefix[i] == Edge(a, b, LastWeight(prefix, a, b).value) &&
                 forall j :: i < j < |prefix| ==> !Joins(prefix[j], a, b);
        assert edges[i] == Edge(a, b, LastWeight(edges, a, b).value);
      }
    }
  }

  /** The first Some of x and y. */
  function Or<T>(x: Option<T>, y: Option<T>): Option<T> {
    if x.Some? then x else y
  }

  /** One step of the forward pass: adj[a][b] := c, and b gets a (possibly empty) entry. */
  function AddEdge(adj: Adjacency, e: Edge): (r: Adjacency)
    ensures r.Keys == adj.Keys + {e.from, e.to}
    ensures forall a, b :: Lookup(r, a, b) == if a == e.from && b == e.to then Some(e.weight) else Lookup(adj, a, b)
  {
    var withFrom := adj[e.from := (if e.from in adj then adj[e.from] else map[])[e.to := e.weight]];
    if e.to in withFrom then withFrom else withFrom[e.to := map[]]
  }

  /** The forward pass over the edge lines, in input order. */
  function ForwardPass(edges: seq<Edge>): (r: Adjacency)
    ensures r.Keys == Endpoints(edges)
    ensures forall a, b :: Lookup(r, a, b) == LastWeight(edges, a, b)
    decreases |edges|
  {
    if |edges| == 0 then map[]
    else
      var prefix := edges[..|edges| - 1];
      var e := edges[|edges| - 1];
      var r := AddEdge(ForwardPass(prefix), e);
      assert forall a, b :: LastWeight(edges, a, b) == if a == e.from && b == e.to then Some(e.weight) else LastWeight(prefix, a, b);
      r
  }

  /** The mirror pass: adj[b][a] := c for every edge line, in input order. */
  function MirrorPass(adj: Adjacency, edges: seq<Edge>): (r: Adjacency)
    requires forall i :: 0 <= i < |edges| ==> edges[i].to in adj
    ensures r.Keys == adj.Keys
    ensures forall a, b :: Lookup(r, a, b) == Or(LastWeight(edges, b, a), Lookup(adj, a, b))
    decreases |edges|
  {
    if |edges| == 0 then adj
    else
      var e := edges[|edges| - 1];
      var m := MirrorPass(adj, edges[..|edges| - 1]);
      var row: map<Vertex, nat> := m[e.to][e.from := e.weight];
      m[e.to := row]
  }

  /** The adjacency map of the edge lines under the given graph type. */
  function Adjacencies(edges: seq<Edge>, graphType: string): (r: Adjacency)
    ensures r.Keys == Endpoints(edges)
    ensures graphType != Undirected ==> forall a, b :: Lookup(r, a, b) == LastWeight(edges, a, b)
    ensures graphType == Undirected ==>
              forall a, b :: Lookup(r, a, b) == Or(LastWeight(edges, b, a), LastWeight(edges, a, b))
  {
    var forward := ForwardPass(edges);
    if graphType == Undirected then
      EndpointsAreEndpoints(edges);
      MirrorPass(forward, edges)
    else forward
  }

  function BuildGraph(g: Text): (r: Result<Built>)
    ensures r.Ok? <==> EdgeLinesPresent(g.lines, EdgeCount(g))
    ensures r.Err? ==> r.error == TakeEdges(g.lines, EdgeCount(g)).error
    ensures r.Ok? ==> r.value.source == GatherInfo(g).source
    ensures r.Ok? ==> Closed(r.value.adjacency)
  {
    var info := GatherInfo(g);
    match TakeEdges(g.lines, EdgeCount(g))
    case Err(e) => Err(e)
    case Ok(edges) =>
      var adj := Adjacencies(edges, info.graphType);
      assert Closed(adj) by {
        forall a, b | a in adj && b in adj[a] ensures b in adj {
          assert Lookup(adj, a, b).Some?;
          LastWeightIsLastLine(edges, a, b);
          LastWeightIsLastLine(edges, b, a);
          EndpointsAreEndpoints(edges);
        }
      }
      Ok(Built(adj, info.source))
  }

  /** The edge lines 1..edgeCount of a text that builds. */
  function EdgesOf(g: Text): (edges: seq<Edge>)
    requires BuildGraph(g).Ok?
    ensures |edges| == EdgeCount(g)
    ensures forall i :: 0 <= i < |edges| ==> g.lines[i] == EdgeLine(edges[i])
  {
    TakeEdges(g.lines, EdgeCount(g)).value
  }

  /** The key set is exactly the set of endpoints of edge lines 1..edgeCount. */
  lemma BuildKeys(g: Text)
    requires BuildGraph(g).Ok?
    ensures forall v :: v in BuildGraph(g).value.adjacency <==>
              exists i :: 0 <= i < EdgeCount(g) && (g.lines[i].edge.from == v || g.lines[i].edge.to == v)
  {
    EndpointsAreEndpoints(EdgesOf(g));
  }

  /** Lines after edge line edgeCount never change the adjacency map. */
  lemma LaterLinesIgnored(g: Text, extra: seq<Line>)
    requires BuildGraph(g).Ok?
    ensures BuildGraph(Text(g.header, g.lines + extra)).Ok?
    ensures BuildGraph(Text(g.header, g.lines + extra)).value.adjacency == BuildGraph(g).value.adjacency
  {
    var g' := Text(g.header, g.lines + extra);
    assert TakeEdges(g'.lines, EdgeCount(g)) == TakeEdges(g.lines, EdgeCount(g)) by {
      var e := TakeEdges(g.lines, EdgeCount(g)).value;
      var e' := TakeEdges(g'.lines, EdgeCount(g)).value;
      assert e == e';
    }
  }

  /**
   Outside type "U", adj[a][b] is the weight of the last edge line from a to b,
   and adj[a] lists only targets that some edge line gives from a.
   */
  lemma DirectedLastWriteWins(g: Text, a: Vertex, b: Vertex)
    requires BuildGraph(g).Ok? && g.header.graphType != Undirected
    ensures forall w :: Lookup(BuildGraph(g).value.adjacency, a, b) == Some(w) ==>
              exists i :: 0 <= i < EdgeCount(g) && g.lines[i].edge == Edge(a, b, w)
    ensures forall i :: 0 <= i < EdgeCount(g) && Joins(g.lines[i].edge, a, b) &&
                        (forall j :: i < j < EdgeCount(g) ==> !Joins(g.lines[j].edge, a, b)) ==>
                          Lookup(BuildGraph(g).value.adjacency, a, b) == Some(g.lines[i].edge.weight)
  {
    var edges := EdgesOf(g);
    var adj := BuildGraph(g).value.adjacency;
    assert Lookup(adj, a, b) == LastWeight(edges, a, b);
    LastWeightIsLastLine(edges, a, b);
    assert forall i :: 0 <= i < |edges| ==> g.lines[i].edge == edges[i];
  }

  /**
   For type "U", every edge line (a, b, c) puts a in adj[b], with the weight of
   the last edge line from a to b: the mirror pass runs after the forward pass.
   */
  lemma UndirectedMirror(g: Text, k: nat)
    requires BuildGraph(g).Ok? && g.header.graphType == Undirected
    requires k < EdgeCount(g)
    ensures var e := g.lines[k].edge;
            Lookup(BuildGraph(g).value.adjacency, e.to, e.from) == LastWeight(EdgesOf(g), e.from, e.to)
    ensures var e := g.lines[k].edge;
            Lookup(BuildGraph(g).value.adjacency, e.to, e.from).Some?
  {
    var e := g.lines[k].edge;
    LastWeightIsLastLine(EdgesOf(g), e.from, e.to);
  }

  /** No two edge lines join the same two distinct vertices in opposite directions. */
  ghost predicate NoOpposingLines(edges: seq<Edge>) {
    forall i, j :: 0 <= i < |edges| && 0 <= j < |edges| && Joins(edges[i], edges[j].to, edges[j].from) ==>
      edges[i].from == edges[i].to
  }

  /**
   For type "U", the weights are symmetric whenever no pair of vertices is
   listed in both directions.
   */
  lemma UndirectedSymmetric(g: Text, a: Vertex, b: Vertex)
    requires BuildGraph(g).Ok? && g.header.graphType == Undirected
    requires NoOpposingLines(EdgesOf(g))
    ensures Lookup(BuildGraph(g).value.adjacency, a, b) == Lookup(BuildGraph(g).value.adjacency, b, a)
  {
    LastWeightIsLastLine(EdgesOf(g), a, b);
    LastWeightIsLastLine(EdgesOf(g), b, a);
  }
}

=== FILE: graph.dfy ===
/**
 Weighted directed graphs as adjacency maps, the error values of the engine,
 and the notions of path, path weight and reachability that the shortest-path
 and spanning-tree contracts are stated in.
 */
module Graph {

  /** A vertex is an opaque label: a whitespace-free token of the input text. */
  type Vertex = string

  /** adj[a][b] is the weight of the edge from a to b. */
  type Adjacency = map<Vertex, map<Vertex, nat>>

  datatype Option<+T> = None | Some(value: T)

  /** The exceptions the engine can raise on its inputs. */
  datatype GraphError =
    | MissingLine(index: nat)        // graph[index] is past the end of the input (IndexError)
    | MalformedLine(index: nat)      // graph[index] is not a "from to weight" line (ValueError)
    | UnknownSource(source: Vertex)  // the source is not a key of the adjacency map (KeyError)

  datatype Result<+T> = Ok(value: T) | Err(error: GraphError)

  /** The weight of the edge from a to b, if there is one. */
  function Lookup(adj: Adjacency, a: Vertex, b: Vertex): Option<nat> {
    if a in adj && b in adj[a] then Some(adj[a][b]) else None
  }

  /** Every neighbour is itself a key: the shape build_graph always produces. */
  ghost predicate Closed(adj: Adjacency) {
    forall a, b :: a in adj && b in adj[a] ==> b in adj
  }

  function Last(p: seq<Vertex>): Vertex
    requires |p| > 0
  {
    p[|p| - 1]
  }

  /** p is a non-empty walk along edges of adj. */
  ghost predicate IsPath(adj: Adjacency, p: seq<Vertex>) {
    && |p| > 0
    && (forall i :: 0 <= i < |p| ==> p[i] in adj)
    && (forall i :: 0 <= i < |p| - 1 ==> p[i + 1] in adj[p[i]])
  }

  /** The sum of the weights of the edges along p. */
  ghost function PathWeight(adj: Adjacency, p: seq<Vertex>): nat
    requires IsPath(adj, p)
    decreases |p|
  {
    if |p| == 1 then 0
    else
      assert IsPath(adj, p[..|p| - 1]);
      PathWeight(adj, p[..|p| - 1]) + adj[p[|p| - 2]][p[|p| - 1]]
  }

  /** p is a path of adj from s to v. */
  ghost predicate PathFrom(adj: Adjacency, s: Vertex, p: seq<Vertex>, v: Vertex) {
    IsPath(adj, p) && p[0] == s && Last(p) == v
  }

  /** Some path of adj leads from s to v. */
  ghost predicate Reachable(adj: Adjacency, s: Vertex, v: Vertex) {
    exists p :: PathFrom(adj, s, p, v)
  }

  /** A path followed by one more edge is a path, one edge heavier. */
  lemma PathExtend(adj: Adjacency, p: seq<Vertex>, v: Vertex)
    requires IsPath(adj, p)
    requires v in adj && v in adj[Last(p)]
    ensures IsPath(adj, p + [v])
    ensures (p + [v])[0] == p[0] && Last(p + [v]) == v
    ensures PathWeight(adj, p + [v]) == PathWeight(adj, p) + adj[Last(p)][v]
  {
    var q := p + [v];
    assert q[..|q| - 1] == p;
  }

  /**
   A set of vertices that contains s and is closed under the edges of adj
   contains every vertex reachable from s.
   */
  lemma {:induction false} ClosedSetHoldsPaths(adj: Adjacency, s: Vertex, visited: set<Vertex>, p: seq<Vertex>)
    requires s in visited
    requires forall x, y :: x in visited && x in adj && y in adj[x] ==> y in visited
    requires IsPath(adj, p) && p[0] == s
    ensures Last(p) in visited
    decreases |p|
  {
    if |p| > 1 {
      var q := p[..|p| - 1];
      assert IsPath(adj, q);
      ClosedSetHoldsPaths(adj, s, visited, q);
      assert p[|p| - 1] in adj[p[|p| - 2]];
    }
  }
}

=== FILE: graph_text.dfy ===
/**
 The tokenised input text of a graph and the header/source extraction
 (gather_info).

 The text is taken already typed: the header as a three-field record and each
 following line either as an edge triple whose weight token is a natural number,
 or as the bare tokens of any other line (a trailing source line, a blank line,
 a line with the wrong number of tokens or a weight token that is not a number).
 Negative weights are outside this input type.
 */
module GraphText {
  import opened Graph

  /** An edge line "from to weight". */
  datatype Edge = Edge(from: Vertex, to: Vertex, weight: nat)

  /** The first line "vertexCount edgeCount graphType". */
  datatype Header = Header(vertexCount: int, edgeCount: int, graphType: string)

  datatype Line = EdgeLine(edge: Edge) | Other(tokens: seq<string>)

  /** graph[0] is the header and graph[i] is lines[i - 1] for i >= 1. */
  datatype Text = Text(header: Header, lines: seq<Line>)

  /** The four values gather_info returns. */
  datatype Info = Info(vertexCount: int, edgeCount: int, graphType: string, source: Vertex)

  /** The source reported when the input names none. */
  const Dummy: Vertex := "dummy"

  /** The graph type that asks for the mirror pass. */
  const Undirected: string := "U"

  function TokenCount(l: Line): nat {
    match l
    case EdgeLine(_) => 3
    case Other(tokens) => |tokens|
  }

  /** The single token of graph[-1], when graph[-1] has exactly one token. */
  function TrailingToken(g: Text): Option<string> {
    if |g.lines| == 0 then None  // graph[-1] is the three-token header
    else match g.lines[|g.lines| - 1]
      case Other(tokens) => if |tokens| == 1 then Some(tokens[0]) else None
      case EdgeLine(_) => None
  }

  /**
   The header fields pass through; the source is the sole token of the last
   line when that line has exactly one token, and the sentinel otherwise.
   */
  function GatherInfo(g: Text): (r: Info)
    ensures r.vertexCount == g.header.vertexCount
    ensures r.edgeCount == g.header.edgeCount
    ensures r.graphType == g.header.graphType
    ensures |g.lines| > 0 && TokenCount(g.lines[|g.lines| - 1]) == 1 ==>
              g.lines[|g.lines| - 1] == Other([r.source])
    ensures (|g.lines| == 0 || TokenCount(g.lines[|g.lines| - 1]) != 1) ==> r.source == Dummy
  {
    var source := match TrailingToken(g) case Some(t) => t case None => Dummy;
    Info(g.header.vertexCount, g.header.edgeCount, g.header.graphType, source)
  }

  /** Appending a one-token line names that token as the source. */
  lemma AppendSourceLine(g: Text, t: string)
    ensures GatherInfo(Text(g.header, g.lines + [Other([t])])).source == t
  {
  }
}

=== FILE: scenarios.dfy ===
/**
 Small concrete inputs that pin down how build_graph resolves repeated and
 opposing edge lines.
 */
module Scenarios {
  import opened Graph
  import opened GraphText
  import opened Builder

  /** A directed text listing the pair A -> B twice: the later weight wins. */
  lemma RepeatedPairLastWins()
    ensures var g := Text(Header(2, 2, "D"), [EdgeLine(Edge("A", "B", 5)), EdgeLine(Edge("A", "B", 2)), Other(["A"])]);
            && BuildGraph(g).Ok?
            && BuildGraph(g).value.adjacency.Keys == {"A", "B"}
            && Lookup(BuildGraph(g).value.adjacency, "A", "B") == Some(2)
            && Lookup(BuildGraph(g).value.adjacency, "B", "A") == None
            && BuildGraph(g).value.source == "A"
  {
  }

  /**
   An undirected text listing A -> B and then B -> A with different weights:
   the mirror pass overwrites both forward weights, so the two directions
   disagree.
   */
  lemma OpposingLinesAsymmetric()
    ensures var g := Text(Header(2, 2, Undirected), [EdgeLine(Edge("A", "B", 5)), EdgeLine(Edge("B", "A", 3))]);
            && BuildGraph(g).Ok?
            && Lookup(BuildGraph(g).value.adjacency, "A", "B") == Some(3)
            && Lookup(BuildGraph(g).value.adjacency, "B", "A") == Some(5)
            && BuildGraph(g).value.source == Dummy
  {
  }

  /** An edge count beyond the last line fails at the first missing index. */
  lemma TooFewLines()
    ensures BuildGraph(Text(Header(2, 3, "D"), [EdgeLine(Edge("A", "B", 1))])) == Err(MissingLine(2))
  {
  }

  /** A trailing source line counted as an edge line fails at its index. */
  lemma SourceLineCountedAsEdge()
    ensures BuildGraph(Text(Header(2, 2, "D"), [EdgeLine(Edge("A", "B", 1)), Other(["A"])])) == Err(MalformedLine(2))
  {
  }
}

=== FILE: shortest_path.dfy ===
/**
 The shortest-path engine (shortest_path_djikstra).

 The priority queue is modelled as a multiset of vertices from which ANY
 entry may be extracted: relaxation reads the distance table, never the
 popped key, so the result does not depend on the order of extraction (the
 in-place key change at line 78, whose entry may be queued or already popped,
 leaves the heap order unreliable anyway).
 */
module ShortestPath {
  import opened Graph

  /** A distance: np.inf or a finite natural number. */
  datatype Dist = Inf | Fin(n: nat)

  /** d + w, where inf + w is inf. */
  function Plus(d: Dist, w: nat): Dist {
    match d
    case Inf => Inf
    case Fin(n) => Fin(n + w)
  }

  /** a < b, where inf < inf is false. */
  predicate Below(a: Dist, b: Dist) {
    a.Fin? && (b.Inf? || a.n < b.n)
  }

  /** a <= b. */
  predicate AtMost(a: Dist, b: Dist) {
    b.Inf? || (a.Fin? && a.n <= b.n)
  }

  /** The parent field: '-' for the source, '' for a vertex never relaxed. */
  datatype Parent = Root | Unset | Via(vertex: Vertex)

  datatype Entry = Entry(distance: Dist, parent: Parent)

  type Table = map<Vertex, Entry>

  /** Every vertex at inf with no parent, then the source at 0 with parent '-'. */
  function Initial(adj: Adjacency, source: Vertex): (t: Table)
    requires source in adj
    ensures t.Keys == adj.Keys
    ensures t[source] == Entry(Fin(0), Root)
    ensures forall v :: v in t && v != source ==> t[v] == Entry(Inf, Unset)
  {
    map v | v in adj :: if v == source then Entry(Fin(0), Root) else Entry(Inf, Unset)
  }

  /**
   One relaxation of the edge u -> v of weight w. Only v may change; when it
   does, its distance strictly drops to dist[u] + w and its parent becomes u.
   Afterwards the edge is relaxed: dist[v] <= dist[u] + w.
   */
  function Relax(t: Table, u: Vertex, v: Vertex, w: nat): (r: Table)
    requires u in t && v in t
    ensures r.Keys == t.Keys
    ensures forall x :: x in t && x != v ==> r[x] == t[x]
    ensures AtMost(r[v].distance, t[v].distance)
    ensures r[v] != t[v] ==>
              Below(r[v].distance, t[v].distance) && r[v] == Entry(Plus(t[u].distance, w), Via(u))
    ensures AtMost(r[v].distance, Plus(r[u].distance, w))
  {
    var d := Plus(t[u].distance, w);
    if Below(d, t[v].distance) then t[v := Entry(d, Via(u))] else t
  }

  // ---------------------------------------------------------------------
  // Termination measure: the number of vertices at inf, then the sum of
  // the finite distances. Every update lowers it lexicographically.
  // ---------------------------------------------------------------------

  ghost predicate Distinct(order: seq<Vertex>) {
    forall i, j :: 0 <= i < j < |order| ==> order[i] != order[j]
  }

  /** Some duplicate-free listing of a set. */
  ghost function Enumerate(s: set<Vertex>): (r: seq<Vertex>)
    ensures Distinct(r)
    ensures forall v :: v in s <==> v in r
    decreases |s|
  {
    if s == {} then []
    else
      var x :| x in s;
      [x] + Enumerate(s - {x})
  }

  ghost function InfMark(e: Entry): nat {
    if e.distance.Inf? then 1 else 0
  }

  ghost function FinValue(e: Entry): nat {
    if e.distance.Inf? then 0 else e.distance.n
  }

  ghost function InfCount(order: seq<Vertex>, t: Table): nat
    requires forall v :: v in order ==> v in t
    decreases |order|
  {
    if |order| == 0 then 0 else InfMark(t[order[0]]) + InfCount(order[1..], t)
  }

  ghost function FinSum(order: seq<Vertex>, t: Table): nat
    requires forall v :: v in order ==> v in t
    decreases |order|
  {
    if |order| == 0 then 0 else FinValue(t[order[0]]) + FinSum(order[1..], t)
  }

  ghost predicate Smaller(order: seq<Vertex>, t1: Table, t0: Table)
    requires forall v :: v in order ==> v in t1 && v in t0
  {
    || InfCount(order, t1) < InfCount(order, t0)
    || (InfCount(order, t1) == InfCount(order, t0) && FinSum(order, t1) < FinSum(order, t0))
  }

  /** Replacing the entry of v, listed exactly once, changes each sum by that entry alone. */
  lemma {:induction false} UpdateSums(order: seq<Vertex>, t: Table, v: Vertex, e: Entry)
    requires Distinct(order)
    requires forall x :: x in order ==> x in t
    requires v in t
    ensures InfCount(order, t[v := e]) + (if v in order then InfMark(t[v]) else 0)
         == InfCount(order, t) + (if v in order then InfMark(e) else 0)
    ensures FinSum(order, t[v := e]) + (if v in order then FinValue(t[v]) else 0)
         == FinSum(order, t) + (if v in order then FinValue(e) else 0)
    decreases |order|
  {
    if |order| > 0 {
      var rest := order[1..];
      assert Distinct(rest);
      assert order[0] == v ==> v !in rest;
      assert v in order <==> (order[0] == v || v in rest);
      UpdateSums(rest, t, v, e);
    }
  }

  /** A strict decrease of one distance lowers the measure. */
  lemma DecreaseIsSmaller(order: seq<Vertex>, t: Table, v: Vertex, e: Entry)
    requires Distinct(order)
    requires forall x :: x in t <==> x in order
    requires v in t && Below(e.distance, t[v].distance)
    ensures Smaller(order, t[v := e], t)
  {
    UpdateSums(order, t, v, e);
  }

  // ---------------------------------------------------------------------
  // The loop invariant
  // ---------------------------------------------------------------------

  /** The parent of v is a neighbour u with dist[u] + w(u, v) <= dist[v], both finite. */
  ghost predicate ParentBelow(adj: Adjacency, t: Table, v: Vertex)
    requires v in t && t[v].parent.Via?
  {
    var u := t[v].parent.vertex;
    && u in adj && u in t && v in adj[u]
    && t[u].distance.Fin? && t[v].distance.Fin?
    && t[u].distance.n + adj[u][v] <= t[v].distance.n
  }

  /** Every edge out of x, except those still to be relaxed, is relaxed. */
  ghost predicate RelaxedExcept(adj: Adjacency, t: Table, work: multiset<Vertex>, cur: Vertex, todo: set<Vertex>) {
    forall x, y :: x in adj && y in adj[x] && x in t && y in t && x !in work && !(x == cur && y in todo) ==>
      AtMost(t[y].distance, Plus(t[x].distance, adj[x][y]))
  }

  ghost predicate Invariant(adj: Adjacency, source: Vertex, t: Table, work: multiset<Vertex>,
                            wit: map<Vertex, seq<Vertex>>, cur: Vertex, todo: set<Vertex>)
  {
    && Closed(adj)
    && t.Keys == adj.Keys
    && source in t && t[source] == Entry(Fin(0), Root)
    && (forall v :: v in work ==> v in t)
    && (forall v :: v in t && v != source ==>
          t[v].parent != Root && (t[v].distance.Inf? <==> t[v].parent == Unset))
    && (forall v :: v in t && t[v].parent.Via? ==> ParentBelow(adj, t, v))
    && (forall v :: v in t && t[v].distance.Fin? ==>
          v in wit && PathFrom(adj, source, wit[v], v) && PathWeight(adj, wit[v]) == t[v].distance.n)
    && RelaxedExcept(adj, t, work, cur, todo)
  }

  method ShortestPaths(adj: Adjacency, source: Vertex) returns (r: Result<Table>)
    requires Closed(adj)
    ensures r.Err? <==> source !in adj
    ensures r.Err? ==> r.error == UnknownSource(source)
    ensures r.Ok? ==> r.value.Keys == adj.Keys
    ensures r.Ok? ==> r.value[source] == Entry(Fin(0), Root)
    ensures r.Ok? ==> forall v :: v in r.value && v != source ==>
              r.value[v].parent != Root && (r.value[v].distance.Inf? <==> r.value[v].parent == Unset)
    // the relaxation fixed point
    ensures r.Ok? ==> forall u, v :: u in adj && v in adj[u] ==>
              AtMost(r.value[v].distance, Plus(r.value[u].distance, adj[u][v]))
    // the parent of v lies on a shortest path to v
    ensures r.Ok? ==> forall v :: v in r.value && r.value[v].parent.Via? ==>
              var u := r.value[v].parent.vertex;
              u in adj && v in adj[u] && r.value[u].distance.Fin? &&
              r.value[v].distance == Plus(r.value[u].distance, adj[u][v])
    // finite exactly on the vertices reachable from the source
    ensures r.Ok? ==> forall v :: v in r.value ==> (r.value[v].distance.Fin? <==> Reachable(adj, source, v))
    // every finite distance is the weight of some path ...
    ensures r.Ok? ==> forall v :: v in r.value && r.value[v].distance.Fin? ==>
              exists p :: PathFrom(adj, source, p, v) && PathWeight(adj, p) == r.value[v].distance.n
    // ... and no path from the source is lighter
    ensures r.Ok? ==> forall p :: IsPath(adj, p) && p[0] == source ==>
              AtMost(r.value[Last(p)].distance, Fin(PathWeight(adj, p)))
  {
    if source !in adj {
      return Err(UnknownSource(source));
    }
    var t := Initial(adj, source);
    var work := multiset(adj.Keys);
    ghost var wit: map<Vertex, seq<Vertex>> := map[source := [source]];
    ghost var order := Enumerate(adj.Keys);
    InitialInvariant(adj, source);
    while work != multiset{}
      invariant Invariant(adj, source, t, work, wit, source, {})
      decreases InfCount(order, t), FinSum(order, t), |work|
    {
      var u :| u in work;
      PopKeeps(adj, source, t, work, wit, u);
      work := work - multiset{u};
      t, work, wit := RelaxNeighbours(adj, source, t, work, wit, order, u);
    }
    Conclude(adj, source, t, wit);
    r := Ok(t);
  }

  /**
   graph_algorithms.py lines 71-79: relax every edge out of u, queueing each neighbour whose
   distance drops. Either nothing changes or the measure goes down.
   */
  method RelaxNeighbours(adj: Adjacency, source: Vertex, t0: Table, work0: multiset<Vertex>,
                         ghost wit0: map<Vertex, seq<Vertex>>, ghost order: seq<Vertex>, u: Vertex)
      returns (t: Table, work: multiset<Vertex>, ghost wit: map<Vertex, seq<Vertex>>)
    requires u in adj
    requires Distinct(order) && forall x :: x in adj <==> x in order
    requires Invariant(adj, source, t0, work0, wit0, u, adj[u].Keys)
    ensures Invariant(adj, source, t, work, wit, source, {})
    ensures (t == t0 && work == work0) || Smaller(order, t, t0)
  {
    t, work, wit := t0, work0, wit0;
    var todo := adj[u].Keys;
    while todo != {}
      invariant todo <= adj[u].Keys
      invariant Invariant(adj, source, t, work, wit, u, todo)
      invariant (t == t0 && work == work0) || Smaller(order, t, t0)
      decreases todo
    {
      var v :| v in todo;
      var t' := Relax(t, u, v, adj[u][v]);
      if t'[v] != t[v] {
        RelaxImproves(adj, source, t, work, wit, u, v, todo);
        DecreaseIsSmaller(order, t, v, t'[v]);
        work := work + multiset{v};
        wit := wit[v := wit[u] + [v]];
      } else {
        RelaxKeeps(adj, source, t, work, wit, u, v, todo);
      }
      todo := todo - {v};
      t := t';
    }
    CursorIrrelevant(adj, source, t, work, wit, u);
  }

  lemma InitialInvariant(adj: Adjacency, source: Vertex)
    requires Closed(adj) && source in adj
    ensures Invariant(adj, source, Initial(adj, source), multiset(adj.Keys), map[source := [source]], source, {})
  {
    var t := Initial(adj, source);
    assert PathFrom(adj, source, [source], source);
  }

  lemma PopKeeps(adj: Adjacency, source: Vertex, t: Table, work: multiset<Vertex>,
                 wit: map<Vertex, seq<Vertex>>, u: Vertex)
    requires Invariant(adj, source, t, work, wit, source, {})
    requires u in work
    ensures u in adj
    ensures Invariant(adj, source, t, work - multiset{u}, wit, u, adj[u].Keys)
  {
  }

  lemma CursorIrrelevant(adj: Adjacency, source: Vertex, t: Table, work: multiset<Vertex>,
                         wit: map<Vertex, seq<Vertex>>, u: Vertex)
    requires Invariant(adj, source, t, work, wit, u, {})
    ensures Invariant(adj, source, t, work, wit, source, {})
  {
  }

  /** A relaxation that changes nothing settles the edge u -> v. */
  lemma RelaxKeeps(adj: Adjacency, source: Vertex, t: Table, work: multiset<Vertex>,
                   wit: map<Vertex, seq<Vertex>>, u: Vertex, v: Vertex, todo: set<Vertex>)
    requires u in adj && todo <= adj[u].Keys && v in todo
    requires Invariant(adj, source, t, work, wit, u, todo)
    requires Relax(t, u, v, adj[u][v])[v] == t[v]
    ensures Relax(t, u, v, adj[u][v]) == t
    ensures Invariant(adj, source, t, work, wit, u, todo - {v})
  {
    var t' := Relax(t, u, v, adj[u][v]);
    assert t' == t;
  }

  /** An update of v to dist[u] + w with parent u, as Relax makes it. */
  ghost predicate Improved(adj: Adjacency, t: Table, t': Table, u: Vertex, v: Vertex)
  {
    && u in adj && v in adj[u] && u in t && v in t && u != v
    && t'.Keys == t.Keys
    && (forall x :: x in t && x != v ==> t'[x] == t[x])
    && t[u].distance.Fin?
    && t'[v] == Entry(Fin(t[u].distance.n + adj[u][v]), Via(u))
    && Below(t'[v].distance, t[v].distance)
  }

  lemma ImprovedParents(adj: Adjacency, t: Table, t': Table, u: Vertex, v: Vertex)
    requires Improved(adj, t, t', u, v)
    requires forall x :: x in t && t[x].parent.Via? ==> ParentBelow(adj, t, x)
    ensures forall x :: x in t' && t'[x].parent.Via? ==> ParentBelow(adj, t', x)
  {
    forall x | x in t' && t'[x].parent.Via?
      ensures ParentBelow(adj, t', x)
    {
      if x != v {
        assert ParentBelow(adj, t, x);
      }
    }
  }

  lemma ImprovedRelaxed(adj: Adjacency, t: Table, t': Table, work: multiset<Vertex>, u: Vertex, v: Vertex, todo: set<Vertex>)
    requires Improved(adj, t, t', u, v) && v in todo
    requires RelaxedExcept(adj, t, work, u, todo)
    ensures RelaxedExcept(adj, t', work + multiset{v}, u, todo - {v})
  {
    forall x, y | x in adj && y in adj[x] && x in t' && y in t' && x !in work + multiset{v} && !(x == u && y in todo - {v})
      ensures AtMost(t'[y].distance, Plus(t'[x].distance, adj[x][y]))
    {
      if !(x == u && y == v) {
        assert AtMost(t[y].distance, Plus(t[x].distance, adj[x][y]));
      }
    }
  }

  lemma ImprovedWitnesses(adj: Adjacency, source: Vertex, t: Table, t': Table, u: Vertex, v: Vertex, wit: map<Vertex, seq<Vertex>>)
    requires Improved(adj, t, t', u, v) && Closed(adj) && t.Keys == adj.Keys
    requires forall x :: x in t && t[x].distance.Fin? ==>
               x in wit && PathFrom(adj, source, wit[x], x) && PathWeight(adj, wit[x]) == t[x].distance.n
    ensures u in wit
    ensures forall x :: x in t' && t'[x].distance.Fin? ==>
               x in wit[v := wit[u] + [v]] && PathFrom(adj, source, wit[v := wit[u] + [v]][x], x) &&
               PathWeight(adj, wit[v := wit[u] + [v]][x]) == t'[x].distance.n
  {
    PathExtend(adj, wit[u], v);
  }

  /**
   A relaxation that lowers dist[v] keeps the invariant once v is queued
   again and its witness path is the one of u extended by the edge.
   */
  lemma RelaxImproves(adj: Adjacency, source: Vertex, t: Table, work: multiset<Vertex>,
                      wit: map<Vertex, seq<Vertex>>, u: Vertex, v: Vertex, todo: set<Vertex>)
    requires u in adj && todo <= adj[u].Keys && v in todo
    requires Invariant(adj, source, t, work, wit, u, todo)
    requires Relax(t, u, v, adj[u][v])[v] != t[v]
    ensures u in wit && v in t
    ensures Below(Relax(t, u, v, adj[u][v])[v].distance, t[v].distance)
    ensures Invariant(adj, source, Relax(t, u, v, adj[u][v]), work + multiset{v},
                      wit[v := wit[u] + [v]], u, todo - {v})
  {
    var t' := Relax(t, u, v, adj[u][v]);
    assert Improved(adj, t, t', u, v);
    ImprovedParents(adj, t, t', u, v);
    ImprovedRelaxed(adj, t, t', work, u, v, todo);
    ImprovedWitnesses(adj, source, t, t', u, v, wit);
  }

  /** The postconditions of ShortestPaths, from the invariant at an empty queue. */
  lemma Conclude(adj: Adjacency, source: Vertex, t: Table, wit: map<Vertex, seq<Vertex>>)
    requires Invariant(adj, source, t, multiset{}, wit, source, {})
    ensures forall u, v :: u in adj && v in adj[u] ==> AtMost(t[v].distance, Plus(t[u].distance, adj[u][v]))
    ensures forall v :: v in t && t[v].parent.Via? ==>
              var u := t[v].parent.vertex;
              u in adj && v in adj[u] && t[u].distance.Fin? && t[v].distance == Plus(t[u].distance, adj[u][v])
    ensures forall v :: v in t ==> (t[v].distance.Fin? <==> Reachable(adj, source, v))
    ensures forall v :: v in t && t[v].distance.Fin? ==>
              exists p :: PathFrom(adj, source, p, v) && PathWeight(adj, p) == t[v].distance.n
    ensures forall p :: IsPath(adj, p) && p[0] == source ==> AtMost(t[Last(p)].distance, Fin(PathWeight(adj, p)))
  {
    assert forall u, v :: u in adj && v in adj[u] ==> AtMost(t[v].distance, Plus(t[u].distance, adj[u][v]));
    FixedPointIsOptimal(adj, source, t);
    forall v | v in t && t[v].parent.Via?
      ensures var u := t[v].parent.vertex;
              u in adj && v in adj[u] && t[u].distance.Fin? && t[v].distance == Plus(t[u].distance, adj[u][v])
    {
      assert ParentBelow(adj, t, v);
    }
    forall v | v in t
      ensures t[v].distance.Fin? <==> Reachable(adj, source, v)
    {
      if t[v].distance.Fin? {
        assert PathFrom(adj, source, wit[v], v);
      }
      if Reachable(adj, source, v) {
        var p :| IsPath(adj, p) && p[0] == source && Last(p) == v;
        assert AtMost(t[Last(p)].distance, Fin(PathWeight(adj, p)));
      }
    }
    forall v | v in t && t[v].distance.Fin?
      ensures exists p :: PathFrom(adj, source, p, v) && PathWeight(adj, p) == t[v].distance.n
    {
      assert PathFrom(adj, source, wit[v], v) && PathWeight(adj, wit[v]) == t[v].distance.n;
    }
  }

  /**
   With every edge relaxed, no path from the source is lighter than the
   distance recorded for its end, and every reachable vertex is finite.
   */
  lemma {:induction false} FixedPointIsOptimal(adj: Adjacency, source: Vertex, t: Table)
    requires t.Keys == adj.Keys && Closed(adj)
    requires source in t && t[source].distance == Fin(0)
    requires forall x, y :: x in adj && y in adj[x] ==> AtMost(t[y].distance, Plus(t[x].distance, adj[x][y]))
    ensures forall p :: IsPath(adj, p) && p[0] == source ==> AtMost(t[Last(p)].distance, Fin(PathWeight(adj, p)))
  {
    forall p | IsPath(adj, p) && p[0] == source
      ensures AtMost(t[Last(p)].distance, Fin(PathWeight(adj, p)))
    {
      PathBound(adj, source, t, p);
    }
  }

  lemma {:induction false} PathBound(adj: Adjacency, source: Vertex, t: Table, p: seq<Vertex>)
    requires t.Keys == adj.Keys && Closed(adj)
    requires source in t && t[source].distance == Fin(0)
    requires forall x, y :: x in adj && y in adj[x] ==> AtMost(t[y].distance, Plus(t[x].distance, adj[x][y]))
    requires IsPath(adj, p) && p[0] == source
    ensures AtMost(t[Last(p)].distance, Fin(PathWeight(adj, p)))
    decreases |p|
  {
    if |p| > 1 {
      var q := p[..|p| - 1];
      assert IsPath(adj, q);
      PathBound(adj, source, t, q);
      assert p[|p| - 1] in adj[p[|p| - 2]];
    }
  }
}

=== FILE: spanning_tree.dfy ===
/**
 The spanning-tree engine (minimum_spanning_tree_prim).

 The heap of candidate edges is modelled as a multiset from which some entry
 of least cost is extracted; among entries of equal cost any may come first
 (heapq breaks such ties by comparing the vertex labels).
 */
module SpanningTree {
  import opened Graph

  /** A heap entry (cost, parent, to): the edge parent -> to of weight cost. */
  datatype Candidate = Candidate(cost: nat, from: Vertex, to: Vertex)

  /** The pair (cost, to) recorded under a parent. */
  datatype Branch = Branch(cost: nat, child: Vertex)

  /** parent -> set of branches; only vertices with a child are keys (defaultdict(set)). */
  type Tree = map<Vertex, set<Branch>>

  /** The tree edges as (parent, cost, child) triples. */
  ghost function TreeEdges(tree: Tree): set<(Vertex, nat, Vertex)> {
    set p, e | p in tree && e in tree[p] :: (p, e.cost, e.child)
  }

  ghost function Children(tree: Tree): set<Vertex> {
    set p, e | p in tree && e in tree[p] :: e.child
  }

  /** The vertices the tree spans: the source and every child. */
  ghost function Covered(tree: Tree, source: Vertex): set<Vertex> {
    {source} + Children(tree)
  }

  /** No vertex is the child of two tree edges. */
  ghost predicate ChildOnce(tree: Tree) {
    forall p1, e1, p2, e2 :: p1 in tree && e1 in tree[p1] && p2 in tree && e2 in tree[p2] && e1.child == e2.child ==>
      p1 == p2 && e1 == e2
  }

  /** Every edge leaving s weighs at least c. */
  ghost predicate LightestCrossing(adj: Adjacency, s: set<Vertex>, c: nat) {
    forall x, y :: x in s && x in adj && y in adj[x] && y !in s ==> c <= adj[x][y]
  }

  /** The vertices visited before v. */
  ghost function Before(rank: map<Vertex, nat>, v: Vertex): set<Vertex> {
    set x | x in rank && v in rank && rank[x] < rank[v]
  }

  /** minimum_spanning_tree[parent].add(Branch(cost, child)): one more tree edge. */
  function Record(tree: Tree, parent: Vertex, cost: nat, child: Vertex): (r: Tree)
    ensures TreeEdges(r) == TreeEdges(tree) + {(parent, cost, child)}
    ensures Children(r) == Children(tree) + {child}
    ensures forall p :: p in tree ==> p in r && tree[p] <= r[p]
    ensures forall p :: p in r ==> p in tree || p == parent
    ensures parent in r && Branch(cost, child) in r[parent]
    ensures forall p, b :: p in r && b in r[p] ==> (p == parent && b == Branch(cost, child)) || (p in tree && b in tree[p])
  {
    var r := tree[parent := (if parent in tree then tree[parent] else {}) + {Branch(cost, child)}];
    assert TreeEdges(r) == TreeEdges(tree) + {(parent, cost, child)} by {
      forall t | t in TreeEdges(r) ensures t in TreeEdges(tree) + {(parent, cost, child)} {
        var p: Vertex, e: Branch :| p in r && e in r[p] && t == (p, e.cost, e.child);
        if p != parent || e != Branch(cost, child) {
          assert p in tree && e in tree[p];
        }
      }
      forall t | t in TreeEdges(tree) + {(parent, cost, child)} ensures t in TreeEdges(r) {
        if t != (parent, cost, child) {
          var p: Vertex, e: Branch :| p in tree && e in tree[p] && t == (p, e.cost, e.child);
          assert p in r && e in r[p];
        } else {
          assert parent in r && Branch(cost, child) in r[parent];
        }
      }
    }
    assert Children(r) == Children(tree) + {child} by {
      forall c | c in Children(r) ensures c in Children(tree) + {child} {
        var p: Vertex, e: Branch :| p in r && e in r[p] && c == e.child;
        if p != parent || e != Branch(cost, child) {
          assert p in tree && e in tree[p];
        }
      }
      forall c | c in Children(tree) + {child} ensures c in Children(r) {
        if c != child {
          var p: Vertex, e: Branch :| p in tree && e in tree[p] && c == e.child;
          assert p in r && e in r[p];
        } else {
          assert parent in r && Branch(cost, child) in r[parent];
        }
      }
    }
    r
  }

  /** The heap of graph_algorithms.py line 89: one entry per edge out of the source. */
  function Seed(adj: Adjacency, source: Vertex): (q: multiset<Candidate>)
    requires source in adj
    ensures forall e :: e in q <==> e.from == source && e.to in adj[source] && e.cost == adj[source][e.to]
    ensures forall e :: q[e] <= 1
  {
    multiset(set to | to in adj[source] :: Candidate(adj[source][to], source, to))
  }

  /** e has the least cost in q. */
  ghost predicate Lightest(q: multiset<Candidate>, e: Candidate) {
    e in q && forall f :: f in q ==> e.cost <= f.cost
  }

  lemma {:induction false} LightestExists(q: multiset<Candidate>)
    requires q != multiset{}
    ensures exists e :: Lightest(q, e)
    decreases |q|
  {
    var x :| x in q;
    var rest := q - multiset{x};
    RestMembers(q, x);
    if rest == multiset{} {
      assert Lightest(q, x);
    } else {
      LightestExists(rest);
      var m :| Lightest(rest, m);
      if x.cost <= m.cost {
        assert Lightest(q, x);
      } else {
        assert Lightest(q, m);
      }
    }
  }

  /** Taking one copy of x out of q keeps every other member. */
  lemma RestMembers(q: multiset<Candidate>, x: Candidate)
    requires x in q
    ensures forall f :: f in q <==> f == x || f in q - multiset{x}
  {
  }

  // ---------------------------------------------------------------------
  // The loop invariant
  // ---------------------------------------------------------------------

  /** Every edge from a visited vertex to an unvisited one, except those still to be pushed, is queued. */
  ghost predicate Frontier(adj: Adjacency, visited: set<Vertex>, q: multiset<Candidate>, cur: Vertex, todo: set<Vertex>) {
    forall x, y :: x in visited && x in adj && y in adj[x] && y !in visited && !(x == cur && y in todo) ==>
      Candidate(adj[x][y], x, y) in q
  }

  /** Every queued entry is an edge of adj, with its weight, out of a visited vertex. */
  ghost predicate Queued(adj: Adjacency, visited: set<Vertex>, q: multiset<Candidate>) {
    forall e :: e in q ==> e.from in visited && e.from in adj && e.to in adj[e.from] && adj[e.from][e.to] == e.cost
  }

  /** Visit numbers: the source first, no two alike, all below the number visited. */
  ghost predicate Ranked(visited: set<Vertex>, source: Vertex, rank: map<Vertex, nat>) {
    && rank.Keys == visited
    && source in rank && rank[source] == 0
    && (forall x :: x in rank ==> rank[x] < |visited|)
    && (forall x, y :: x in rank && y in rank && x != y ==> rank[x] != rank[y])
  }

  /**
   Every tree edge is an edge of adj with its weight, from a vertex visited
   earlier, and weighs no more than any edge leaving the vertices visited
   before its child.
   */
  ghost predicate TreeShape(adj: Adjacency, tree: Tree, rank: map<Vertex, nat>) {
    forall p, e :: p in tree && e in tree[p] ==>
      && p in rank && e.child in rank && rank[p] < rank[e.child]
      && p in adj && e.child in adj[p] && adj[p][e.child] == e.cost
      && LightestCrossing(adj, Before(rank, e.child), e.cost)
  }

  ghost predicate Invariant(adj: Adjacency, source: Vertex, visited: set<Vertex>, q: multiset<Candidate>,
                            tree: Tree, rank: map<Vertex, nat>, wit: map<Vertex, seq<Vertex>>,
                            cur: Vertex, todo: set<Vertex>)
  {
    && Closed(adj)
    && visited <= adj.Keys && source in visited
    && Ranked(visited, source, rank)
    && Queued(adj, visited, q)
    && Frontier(adj, visited, q, cur, todo)
    && TreeShape(adj, tree, rank)
    && (forall p :: p in tree ==> tree[p] != {})
    && ChildOnce(tree)
    && Children(tree) == visited - {source}
    && |TreeEdges(tree)| == |visited| - 1
    && (forall v :: v in visited ==> v in wit && PathFrom(adj, source, wit[v], v))
  }

  method MinimumSpanningTree(adj: Adjacency, source: Vertex) returns (r: Result<Tree>, ghost rank: map<Vertex, nat>)
    requires Closed(adj)
    ensures r.Err? <==> source !in adj
    ensures r.Err? ==> r.error == UnknownSource(source)
    // tree edges are edges of adj with their weights
    ensures r.Ok? ==> forall p, e :: p in r.value && e in r.value[p] ==>
              p in adj && e.child in adj[p] && adj[p][e.child] == e.cost
    ensures r.Ok? ==> forall p :: p in r.value ==> r.value[p] != {}
    ensures r.Ok? ==> source !in Children(r.value)
    ensures r.Ok? ==> ChildOnce(r.value)
    // the tree spans exactly the vertices reachable from the source ...
    ensures r.Ok? ==> forall v :: v in Covered(r.value, source) <==> Reachable(adj, source, v)
    // ... with one edge fewer than it spans
    ensures r.Ok? ==> |TreeEdges(r.value)| == |Covered(r.value, source)| - 1
    // visit order: the source first, every parent before its children
    ensures r.Ok? ==> rank.Keys == Covered(r.value, source) && rank[source] == 0
    ensures r.Ok? ==> forall x, y :: x in rank && y in rank && x != y ==> rank[x] != rank[y]
    ensures r.Ok? ==> forall p, e :: p in r.value && e in r.value[p] ==> p in rank && e.child in rank && rank[p] < rank[e.child]
    // each tree edge is a lightest edge leaving the vertices visited before its child
    ensures r.Ok? ==> forall p, e :: p in r.value && e in r.value[p] ==> LightestCrossing(adj, Before(rank, e.child), e.cost)
  {
    if source !in adj {
      r, rank := Err(UnknownSource(source)), map[];
    } else {
      var visited := {source};
      var tree: Tree := map[];
      var q := Seed(adj, source);
      rank := map[source := 0];
      ghost var wit := map[source := [source]];
      InitialInvariant(adj, source);
      while q != multiset{}
        invariant Invariant(adj, source, visited, q, tree, rank, wit, source, {})
        decreases |adj.Keys - visited|, |q|
      {
        var popped;
        popped, visited, q, tree, rank, wit := PrimStep(adj, source, visited, q, tree, rank, wit);
      }
      Finish(adj, source, visited, tree, rank, wit);
      r := Ok(tree);
    }
  }

  /**
   graph_algorithms.py lines 97-107: pop a lightest entry and, when its target is not yet
   visited, visit it, record the tree edge and queue the target's edges.
   The popped entry is a lightest one: a visited target leaves the visited
   set and the tree alone and drops the entry; otherwise the target joins the
   visited set and its edge joins the tree. Either one more vertex is visited
   or the heap shrinks.
   */
  method PrimStep(adj: Adjacency, source: Vertex, visited: set<Vertex>, q: multiset<Candidate>, tree: Tree,
                  ghost rank: map<Vertex, nat>, ghost wit: map<Vertex, seq<Vertex>>)
      returns (e: Candidate, visited': set<Vertex>, q': multiset<Candidate>, tree': Tree,
               ghost rank': map<Vertex, nat>, ghost wit': map<Vertex, seq<Vertex>>)
    requires q != multiset{}
    requires Invariant(adj, source, visited, q, tree, rank, wit, source, {})
    ensures Invariant(adj, source, visited', q', tree', rank', wit', source, {})
    ensures |adj.Keys - visited'| < |adj.Keys - visited| || (visited' == visited && |q'| < |q|)
    ensures Lightest(q, e)
    ensures e.to in visited ==> visited' == visited && tree' == tree && q' == q - multiset{e}
    ensures e.to !in visited ==> visited' == visited + {e.to} && tree' == Record(tree, e.from, e.cost, e.to)
  {
    LightestExists(q);
    e :| e in q && forall f :: f in q ==> e.cost <= f.cost;
    if e.to in visited {
      SkipKeeps(adj, source, visited, q, tree, rank, wit, e);
      visited', q', tree', rank', wit' := visited, q - multiset{e}, tree, rank, wit;
    } else {
      VisitKeeps(adj, source, visited, q, tree, rank, wit, e);
      rank' := rank[e.to := |visited|];
      wit' := wit[e.to := wit[e.from] + [e.to]];
      visited' := visited + {e.to};
      tree' := Record(tree, e.from, e.cost, e.to);
      q' := PushNeighbours(adj, source, visited', q - multiset{e}, tree', rank', wit', e.to);
    }
  }

  /** graph_algorithms.py lines 104-107: queue the edge to every unvisited neighbour of the vertex just visited. */
  method PushNeighbours(adj: Adjacency, source: Vertex, visited: set<Vertex>, q: multiset<Candidate>,
                        tree: Tree, ghost rank: map<Vertex, nat>, ghost wit: map<Vertex, seq<Vertex>>, u: Vertex)
      returns (q': multiset<Candidate>)
    requires u in visited && u in adj
    requires Invariant(adj, source, visited, q, tree, rank, wit, u, adj[u].Keys)
    ensures Invariant(adj, source, visited, q', tree, rank, wit, source, {})
  {
    q' := q;
    var todo := adj[u].Keys;
    while todo != {}
      invariant todo <= adj[u].Keys
      invariant Invariant(adj, source, visited, q', tree, rank, wit, u, todo)
      decreases todo
    {
      var n :| n in todo;
      PushKeeps(adj, source, visited, q', tree, rank, wit, u, todo, n);
      if n !in visited {
        q' := q' + multiset{Candidate(adj[u][n], u, n)};
      }
      todo := todo - {n};
    }
    PushedAll(adj, source, visited, q', tree, rank, wit, u);
  }

  lemma InitialInvariant(adj: Adjacency, source: Vertex)
    requires Closed(adj) && source in adj
    ensures Invariant(adj, source, {source}, Seed(adj, source), map[], map[source := 0],
                      map[source := [source]], source, {})
  {
    assert PathFrom(adj, source, [source], source);
    assert TreeEdges(map[]) == {};
    assert Children(map[]) == {};
  }

  /** Popping an entry whose target is already visited changes nothing else. */
  lemma SkipKeeps(adj: Adjacency, source: Vertex, visited: set<Vertex>, q: multiset<Candidate>,
                  tree: Tree, rank: map<Vertex, nat>, wit: map<Vertex, seq<Vertex>>, e: Candidate)
    requires Invariant(adj, source, visited, q, tree, rank, wit, source, {})
    requires e in q && e.to in visited
    ensures Invariant(adj, source, visited, q - multiset{e}, tree, rank, wit, source, {})
  {
    forall x, y | x in visited && x in adj && y in adj[x] && y !in visited
      ensures Candidate(adj[x][y], x, y) in q - multiset{e}
    {
      assert Candidate(adj[x][y], x, y) in q;
    }
  }

  /**
   Visiting the target of a lightest entry: the entry becomes a tree edge and
   the invariant holds with the new vertex's edges still to be pushed.
   */
  lemma VisitKeeps(adj: Adjacency, source: Vertex, visited: set<Vertex>, q: multiset<Candidate>,
                   tree: Tree, rank: map<Vertex, nat>, wit: map<Vertex, seq<Vertex>>, e: Candidate)
    requires Invariant(adj, source, visited, q, tree, rank, wit, source, {})
    requires Lightest(q, e) && e.to !in visited
    ensures e.from in wit && e.to in adj
    ensures |adj.Keys - (visited + {e.to})| < |adj.Keys - visited|
    ensures Invariant(adj, source, visited + {e.to}, q - multiset{e}, Record(tree, e.from, e.cost, e.to),
                      rank[e.to := |visited|], wit[e.to := wit[e.from] + [e.to]], e.to, adj[e.to].Keys)
  {
    var visited' := visited + {e.to};
    var q' := q - multiset{e};
    var tree' := Record(tree, e.from, e.cost, e.to);
    var rank' := rank[e.to := |visited|];
    var wit' := wit[e.to := wit[e.from] + [e.to]];
    assert e.to in adj;
    VisitShrinks(adj.Keys, visited, e.to);
    VisitRanked(visited, source, rank, e.to);
    VisitFrontier(adj, visited, q, source, e);
    VisitTreeShape(adj, visited, q, tree, rank, source, e);
    VisitChildren(source, visited, tree, e);
    VisitCount(visited, tree, e);
    RecordChildOnce(tree, e.from, e.cost, e.to);
    RecordNonEmpty(tree, e.from, e.cost, e.to);
    VisitWitness(adj, source, visited, wit, e.from, e.to);
    assert Invariant(adj, source, visited', q', tree', rank', wit', e.to, adj[e.to].Keys);
  }

  /** Pushing the edge to one more neighbour, when that neighbour is unvisited. */
  lemma PushKeeps(adj: Adjacency, source: Vertex, visited: set<Vertex>, q: multiset<Candidate>,
                  tree: Tree, rank: map<Vertex, nat>, wit: map<Vertex, seq<Vertex>>,
                  u: Vertex, todo: set<Vertex>, n: Vertex)
    requires Invariant(adj, source, visited, q, tree, rank, wit, u, todo)
    requires u in visited && u in adj && n in todo && todo <= adj[u].Keys
    ensures Invariant(adj, source, visited, if n in visited then q else q + multiset{Candidate(adj[u][n], u, n)},
                      tree, rank, wit, u, todo - {n})
  {
    var q' := if n in visited then q else q + multiset{Candidate(adj[u][n], u, n)};
    PushFrontier(adj, visited, q, u, todo, n);
    assert Invariant(adj, source, visited, q', tree, rank, wit, u, todo - {n});
  }

  lemma PushFrontier(adj: Adjacency, visited: set<Vertex>, q: multiset<Candidate>, u: Vertex, todo: set<Vertex>, n: Vertex)
    requires Queued(adj, visited, q) && Frontier(adj, visited, q, u, todo)
    requires u in visited && u in adj && n in todo && todo <= adj[u].Keys
    ensures Queued(adj, visited, if n in visited then q else q + multiset{Candidate(adj[u][n], u, n)})
    ensures Frontier(adj, visited, if n in visited then q else q + multiset{Candidate(adj[u][n], u, n)}, u, todo - {n})
  {
    var q' := if n in visited then q else q + multiset{Candidate(adj[u][n], u, n)};
    forall x, y | x in visited && x in adj && y in adj[x] && y !in visited && !(x == u && y in todo - {n})
      ensures Candidate(adj[x][y], x, y) in q'
    {
      if x != u || y != n {
        assert Candidate(adj[x][y], x, y) in q;
      }
    }
  }

  /** Once every neighbour is pushed, the cursor no longer matters. */
  lemma PushedAll(adj: Adjacency, source: Vertex, visited: set<Vertex>, q: multiset<Candidate>,
                  tree: Tree, rank: map<Vertex, nat>, wit: map<Vertex, seq<Vertex>>, u: Vertex)
    requires Invariant(adj, source, visited, q, tree, rank, wit, u, {})
    ensures Invariant(adj, source, visited, q, tree, rank, wit, source, {})
  {
    assert Frontier(adj, visited, q, source, {});
  }

  /** One more vertex visited leaves one fewer to visit. */
  lemma VisitShrinks(keys: set<Vertex>, visited: set<Vertex>, v: Vertex)
    requires v in keys && v !in visited
    ensures |keys - (visited + {v})| < |keys - visited|
  {
    assert keys - (visited + {v}) == (keys - visited) - {v};
  }

  lemma VisitWitness(adj: Adjacency, source: Vertex, visited: set<Vertex>, wit: map<Vertex, seq<Vertex>>, u: Vertex, v: Vertex)
    requires forall x :: x in visited ==> x in wit && PathFrom(adj, source, wit[x], x)
    requires u in visited && u in adj && v in adj && v in adj[u]
    ensures forall x :: x in visited + {v} ==>
              x in wit[v := wit[u] + [v]] && PathFrom(adj, source, wit[v := wit[u] + [v]][x], x)
  {
    PathExtend(adj, wit[u], v);
  }

  lemma VisitRanked(visited: set<Vertex>, source: Vertex, rank: map<Vertex, nat>, v: Vertex)
    requires Ranked(visited, source, rank) && v !in visited
    ensures Ranked(visited + {v}, source, rank[v := |visited|])
  {
  }

  lemma VisitFrontier(adj: Adjacency, visited: set<Vertex>, q: multiset<Candidate>, cur: Vertex, e: Candidate)
    requires Frontier(adj, visited, q, cur, {}) && e in q && e.to !in visited
    requires Queued(adj, visited, q)
    ensures Queued(adj, visited + {e.to}, q - multiset{e})
    ensures e.to in adj ==> Frontier(adj, visited + {e.to}, q - multiset{e}, e.to, adj[e.to].Keys)
  {
    forall x, y | x in visited + {e.to} && x in adj && y in adj[x] && y !in visited + {e.to} && !(x == e.to && y in adj[e.to].Keys)
      ensures Candidate(adj[x][y], x, y) in q - multiset{e}
    {
      assert Candidate(adj[x][y], x, y) in q;
    }
  }

  lemma VisitTreeShape(adj: Adjacency, visited: set<Vertex>, q: multiset<Candidate>, tree: Tree,
                       rank: map<Vertex, nat>, cur: Vertex, e: Candidate)
    requires rank.Keys == visited && forall x :: x in rank ==> rank[x] < |visited|
    requires TreeShape(adj, tree, rank)
    requires Queued(adj, visited, q) && Frontier(adj, visited, q, cur, {})
    requires Lightest(q, e) && e.to !in visited
    ensures TreeShape(adj, Record(tree, e.from, e.cost, e.to), rank[e.to := |visited|])
  {
    var tree' := Record(tree, e.from, e.cost, e.to);
    var rank' := rank[e.to := |visited|];
    NewRankBefore(rank, visited, e.to);
    LightestLeavesVisited(adj, visited, q, cur, e);
    forall p: Vertex, f: Branch | p in tree' && f in tree'[p]
      ensures p in rank' && f.child in rank' && rank'[p] < rank'[f.child]
      ensures p in adj && f.child in adj[p] && adj[p][f.child] == f.cost
      ensures LightestCrossing(adj, Before(rank', f.child), f.cost)
    {
      if !(p == e.from && f == Branch(e.cost, e.to)) {
        assert p in tree && f in tree[p];
        OldRankBefore(rank, visited, e.to, f.child);
      }
    }
  }

  /** The vertices visited before a newly visited one are all those visited so far. */
  lemma NewRankBefore(rank: map<Vertex, nat>, visited: set<Vertex>, v: Vertex)
    requires rank.Keys == visited && v !in visited && forall x :: x in rank ==> rank[x] < |visited|
    ensures Before(rank[v := |visited|], v) == visited
  {
  }

  /** Numbering a new vertex last leaves the earlier vertices' predecessors alone. */
  lemma OldRankBefore(rank: map<Vertex, nat>, visited: set<Vertex>, v: Vertex, c: Vertex)
    requires rank.Keys == visited && v !in visited && forall x :: x in rank ==> rank[x] < |visited|
    requires c in rank
    ensures Before(rank[v := |visited|], c) == Before(rank, c)
  {
  }

  /** With every crossing edge queued, a lightest entry is a lightest crossing edge. */
  lemma LightestLeavesVisited(adj: Adjacency, visited: set<Vertex>, q: multiset<Candidate>, cur: Vertex, e: Candidate)
    requires Frontier(adj, visited, q, cur, {}) && Lightest(q, e)
    ensures LightestCrossing(adj, visited, e.cost)
  {
    forall x, y | x in visited && x in adj && y in adj[x] && y !in visited
      ensures e.cost <= adj[x][y]
    {
      assert Candidate(adj[x][y], x, y) in q;
    }
  }

  lemma VisitChildren(source: Vertex, visited: set<Vertex>, tree: Tree, e: Candidate)
    requires source in visited && e.to !in visited
    requires Children(tree) == visited - {source}
    ensures Children(Record(tree, e.from, e.cost, e.to)) == (visited + {e.to}) - {source}
  {
  }

  lemma VisitCount(visited: set<Vertex>, tree: Tree, e: Candidate)
    requires e.to !in visited && e.to !in Children(tree)
    requires |TreeEdges(tree)| == |visited| - 1
    ensures |TreeEdges(Record(tree, e.from, e.cost, e.to))| == |visited + {e.to}| - 1
  {
    RecordCount(tree, e.from, e.cost, e.to);
  }

  lemma RecordNonEmpty(tree: Tree, parent: Vertex, cost: nat, child: Vertex)
    requires forall p :: p in tree ==> tree[p] != {}
    ensures forall p :: p in Record(tree, parent, cost, child) ==> Record(tree, parent, cost, child)[p] != {}
  {
    var r := Record(tree, parent, cost, child);
    forall p | p in r ensures r[p] != {} {
      if p != parent {
        assert p in tree && tree[p] <= r[p];
      }
    }
  }

  lemma RecordCount(tree: Tree, parent: Vertex, cost: nat, child: Vertex)
    requires child !in Children(tree)
    ensures |TreeEdges(Record(tree, parent, cost, child))| == |TreeEdges(tree)| + 1
  {
    NewChildIsNewEdge(tree, parent, cost, child);
  }

  lemma NewChildIsNewEdge(tree: Tree, parent: Vertex, cost: nat, child: Vertex)
    requires child !in Children(tree)
    ensures (parent, cost, child) !in TreeEdges(tree)
  {
    forall t | t in TreeEdges(tree) ensures t.2 in Children(tree) {
      var p: Vertex, f: Branch :| p in tree && f in tree[p] && t == (p, f.cost, f.child);
      assert f.child in Children(tree);
    }
  }

  /** A new child keeps every vertex a child at most once. */
  lemma RecordChildOnce(tree: Tree, parent: Vertex, cost: nat, child: Vertex)
    requires ChildOnce(tree) && child !in Children(tree)
    ensures ChildOnce(Record(tree, parent, cost, child))
  {
    var r := Record(tree, parent, cost, child);
    var b := Branch(cost, child);
    assert forall p, f :: p in r && f in r[p] ==> (p == parent && f == b) || (p in tree && f in tree[p]);
    forall p1: Vertex, f1: Branch, p2: Vertex, f2: Branch | p1 in r && f1 in r[p1] && p2 in r && f2 in r[p2] && f1.child == f2.child
      ensures p1 == p2 && f1 == f2
    {
      if !(p1 == parent && f1 == b) {
        assert p1 in tree && f1 in tree[p1];
        assert f1.child in Children(tree);
      }
      if !(p2 == parent && f2 == b) {
        assert p2 in tree && f2 in tree[p2];
        assert f2.child in Children(tree);
      }
    }
  }

  /** The postconditions of MinimumSpanningTree, from the invariant at an empty heap. */
  lemma Finish(adj: Adjacency, source: Vertex, visited: set<Vertex>, tree: Tree,
               rank: map<Vertex, nat>, wit: map<Vertex, seq<Vertex>>)
    requires Invariant(adj, source, visited, multiset{}, tree, rank, wit, source, {})
    ensures forall p, e :: p in tree && e in tree[p] ==> p in adj && e.child in adj[p] && adj[p][e.child] == e.cost
    ensures forall p :: p in tree ==> tree[p] != {}
    ensures source !in Children(tree)
    ensures ChildOnce(tree)
    ensures forall v :: v in Covered(tree, source) <==> Reachable(adj, source, v)
    ensures |TreeEdges(tree)| == |Covered(tree, source)| - 1
    ensures rank.Keys == Covered(tree, source) && rank[source] == 0
    ensures forall x, y :: x in rank && y in rank && x != y ==> rank[x] != rank[y]
    ensures forall p, e :: p in tree && e in tree[p] ==> p in rank && e.child in rank && rank[p] < rank[e.child]
    ensures forall p, e :: p in tree && e in tree[p] ==> LightestCrossing(adj, Before(rank, e.child), e.cost)
  {
    Conclude(adj, source, visited, tree, wit);
  }

  /** The reachable vertices are exactly the visited ones once the heap is empty. */
  lemma Conclude(adj: Adjacency, source: Vertex, visited: set<Vertex>, tree: Tree, wit: map<Vertex, seq<Vertex>>)
    requires source in visited && Children(tree) == visited - {source}
    requires Frontier(adj, visited, multiset{}, source, {})
    requires forall v :: v in visited ==> v in wit && PathFrom(adj, source, wit[v], v)
    ensures Covered(tree, source) == visited
    ensures forall v :: v in visited <==> Reachable(adj, source, v)
  {
    assert forall x, y :: x in visited && x in adj && y in adj[x] ==> y in visited;
    forall v | Reachable(adj, source, v)
      ensures v in visited
    {
      var p :| IsPath(adj, p) && p[0] == source && Last(p) == v;
      ClosedSetHoldsPaths(adj, source, visited, p);
    }
    forall v | v in visited
      ensures Reachable(adj, source, v)
    {
      assert PathFrom(adj, source, wit[v], v);
    }
  }
}
